=== FILE: README.md ===
# Chat client response normaliser and client-side stores, in Dafny

This project models three pure pieces of a browser chat client:

- **The response normaliser** of the chat API (`src/features/chats/api/chat.ts`).
  The structural guards `isRecord`, `isConversation` and `isMessageHistoryResponse` are modelled.
  So is the decode step that `fetchConversations`, `fetchMessages` and `fetchMoreMessages` apply to the body `data`.
  A body is accepted bare or wrapped one level under a `data` property.
  Invalid conversations are dropped from lists, keeping order.
  Any other shape gives a typed empty default: the empty list, or the zeroed history page.
  A decoded body is a value of the `Json` datatype (`json.dfy`).
  JavaScript's `typeof`, `Array.isArray` and property access are modelled on it, with `undefined` as `None`.
- **The unread-count store** (`src/stores/unread-store.ts`).
  It keeps per-conversation counters in a JavaScript `Map`.
  The model represents that `Map` as its keys in insertion order plus a key-to-value table.
  A subset type keeps the two consistent: every key listed once, and the listed keys are exactly the stored ones.
  `Map.set` keeps an existing key's position and appends a new key; `Map.delete` removes the key from both parts.
  Every store action is a pure function from the old map to the new one.
  The persistence pair `partialize` / `merge` turns the map into an entry list and back.
- **The active-conversation selector** (`src/stores/active-conversation-store.ts`).
  It holds at most one open conversation id.

Modules: `Wrappers` (the `Option` type), `Json`, `ChatApi`, `UnreadStore`, `ActiveConversationStore`.

Two facts about the code shape the store's contracts:

- `merge` falls back to the empty map only when `unreadMap` is missing or is not an array (src/stores/unread-store.ts:95-97).
  The elements of the array are cast, not checked.
  The model therefore takes a well-typed entry list, and claims no invariant about a rehydrated map.
- Every mutation keeps each count at 1 or more, because a count of 0 or below deletes the entry (`UnreadStore.WellFormed`).

`fetchMoreMessages` is declared to return a separate response type.
Its body checks the same guard as `fetchMessages` and builds the same default.
The model proves the two decode steps equal.

## Model

| member | source | states |
|---|---|---|
| Json.TypeOf | src/features/chats/api/chat.ts:13 | `typeof` reports "object" for exactly null, arrays and objects |
| Json.IsArray | src/features/chats/api/chat.ts:13 | `Array.isArray` holds exactly for arrays |
| Json.IsArrayMember | src/features/chats/api/chat.ts:69 | `Array.isArray` on a property read holds exactly when the property is present and holds an array |
| Json.Member | src/features/chats/api/chat.ts:67 | For the own properties the guards read on a record, a read yields the stored value when the object holds the property and `undefined` otherwise |
| Json.TypeOfMember | src/features/chats/api/chat.ts:22-25 | `typeof` of a property read is "undefined" exactly when the property is missing |
| ChatApi.IsRecord | src/features/chats/api/chat.ts:12-14 | On JSON values, `typeof` "object" minus null minus arrays is exactly the objects |
| ChatApi.IsConversation | src/features/chats/api/chat.ts:19-27 | Holds iff the value is an object whose `id` is a number, `patientName` and `responder` are strings, and `newMessage` is a boolean |
| ChatApi.IsMessageHistoryResponse | src/features/chats/api/chat.ts:32-43 | Holds iff the value is an object whose `messages` is an array, `lastReadId`, `totalUnread` and `totalMessage` are numbers, and `hasMoreOld` is a boolean |
| ChatApi.HistoryRoundTrip | src/features/chats/api/chat.ts:32-43 | Every history page written as JSON passes the guard and reads back as the same page |
| ChatApi.FilterConversations | src/features/chats/api/chat.ts:59 | Every kept element passes the guard; the result is an order-preserving subsequence of the input; each valid element is kept as often as it occurs and each invalid one never |
| ChatApi.FilterAllValid | src/features/chats/api/chat.ts:57-61 | A list whose elements all pass the guard is returned unchanged |
| ChatApi.FilterIdempotent | src/features/chats/api/chat.ts:72 | Filtering an already filtered list changes nothing |
| ChatApi.NormalizeConversations | src/features/chats/api/chat.ts:54-79 | Whatever the body, every returned element is a valid conversation; for a bare array the result is a subsequence of it |
| ChatApi.NormalizeDirectArray | src/features/chats/api/chat.ts:57-62 | A bare array yields exactly its valid elements in order; an all-valid array is returned as is |
| ChatApi.NormalizeWrappedIsDirect | src/features/chats/api/chat.ts:65-75 | A record whose `data` is an array, whatever else it holds, normalises exactly like that bare array |
| ChatApi.NormalizeConversationsFallback | src/features/chats/api/chat.ts:78-79 | A body that is neither an array nor a record with an array `data` yields the empty list |
| ChatApi.NormalizeConversationsIdempotent | src/features/chats/api/chat.ts:57-75 | Normalising the normalised list again gives the same list |
| ChatApi.NormalizeMessages | src/features/chats/api/chat.ts:99-118 | The result always passes the history guard; a body that passes is returned unchanged; otherwise the result is the wrapped `data` value or the zeroed page |
| ChatApi.NormalizeMessagesWrapped | src/features/chats/api/chat.ts:106-109 | A record that fails the guard but whose `data` passes it yields that `data` value |
| ChatApi.NormalizeMessagesFallback | src/features/chats/api/chat.ts:111-118 | Any other body yields the page with no messages, ids and totals 0 and `hasMoreOld` false |
| ChatApi.NormalizeMessagesIdempotent | src/features/chats/api/chat.ts:101-109 | Normalising a normalised page again gives the same page |
| ChatApi.NormalizeMoreMessages | src/features/chats/api/chat.ts:139-158 | The result always passes the history guard |
| ChatApi.MoreMessagesSameAsMessages | src/features/chats/api/chat.ts:139-158 | The older-messages decode step equals the message-history decode step on every body |
| UnreadStore.Get | src/stores/unread-store.ts:27 | `Map.get` finds a value exactly for the keys the map lists, and that value is the stored one |
| UnreadStore.Put | src/stores/unread-store.ts:30-40 | `Map.set` stores the value under the key; an existing key keeps its place in the order and a new key goes last |
| UnreadStore.RemoveKeyKeepsOrder | src/stores/unread-store.ts:69 | Removing a key listed once leaves exactly the keys before it followed by the keys after it |
| UnreadStore.Delete | src/stores/unread-store.ts:69 | `Map.delete` removes the key from the table; the order loses that one key and keeps the other keys in their order |
| UnreadStore.InitialWellFormed | src/stores/unread-store.ts:22 | The store starts from the empty map, which satisfies the store invariant |
| UnreadStore.GetUnreadCount | src/stores/unread-store.ts:74-76 | The stored count for a present conversation, 0 for an absent one |
| UnreadStore.AddUnreadMessage | src/stores/unread-store.ts:24-45 | The conversation's count becomes its previous count plus one (1 for a new entry), stamped with the message time; every other entry is unchanged; a new key goes last and an existing one keeps its place; the store invariant is kept |
| UnreadStore.SetUnreadCount | src/stores/unread-store.ts:47-64 | A positive count is stored with the given time, or with "now" when the time is absent or empty; a count of 0 or below removes the entry; every other entry is unchanged; the store invariant is kept; a stored key keeps its place (or goes last when new) and a deleted key leaves the order with the others in place |
| UnreadStore.ClearUnread | src/stores/unread-store.ts:66-72 | The entry is gone, every other entry is unchanged, the other keys keep their order, and the store invariant is kept |
| UnreadStore.ClearUnreadIdempotent | src/stores/unread-store.ts:66-72 | Clearing twice is the same as clearing once |
| UnreadStore.AddTwiceCountsTwo | src/stores/unread-store.ts:29-34 | Two messages for one conversation raise its count by two, and the later time is kept |
| UnreadStore.SetThenGet | src/stores/unread-store.ts:51-60 | After setting, lookup gives the count when it is positive and 0 otherwise |
| UnreadStore.GetTotalUnread | src/stores/unread-store.ts:78-84 | The walk over the entries in insertion order returns the sum of all counts |
| UnreadStore.TotalAfterAdd | src/stores/unread-store.ts:24-45 | Each new unread message raises the total by exactly one |
| UnreadStore.TotalAfterClear | src/stores/unread-store.ts:66-72 | Clearing a conversation lowers the total by exactly its count |
| UnreadStore.TotalAfterSet | src/stores/unread-store.ts:47-64 | Setting a count replaces the conversation's share of the total by the new count, or by 0 when the entry is deleted |
| UnreadStore.TotalAfterClearingAll | src/stores/unread-store.ts:66-84 | Clearing every present conversation leaves the empty map, whose total is 0 |
| UnreadStore.TotalCountsEntries | src/stores/unread-store.ts:78-84 | Under the store invariant the total is at least the number of entries, and it is 0 exactly when the map is empty |
| UnreadStore.Entries | src/stores/unread-store.ts:90 | One entry per key, each pairing the key with its stored value |
| UnreadStore.Partialize | src/stores/unread-store.ts:88-91 | The persisted state holds an entry array listing every key in insertion order, each with its stored value |
| UnreadStore.FromEntries | src/stores/unread-store.ts:94-98 | The rebuilt map holds exactly the keys of the entry list, and the last pair's value is what its key holds |
| UnreadStore.FromEntriesLastValue | src/stores/unread-store.ts:94-98 | Every key of the entry list holds the value of the last pair that carries it |
| UnreadStore.FromEntriesFirstOrder | src/stores/unread-store.ts:94-98 | The rebuilt map lists its keys in the order of their first occurrence in the entry list |
| UnreadStore.Merge | src/stores/unread-store.ts:92-103 | A missing persisted state or an `unreadMap` that is missing or not an array rehydrates to the empty map; an entry array rehydrates to `new Map(entries)`, holding exactly its keys |
| UnreadStore.PersistRoundTrip | src/stores/unread-store.ts:88-103 | Persisting and then rehydrating gives back the same map: same keys, same values, same order |
| ActiveConversationStore.SetActiveConversation | src/stores/active-conversation-store.ts:11 | The state becomes exactly the given id, or null, whatever it was |
| ActiveConversationStore.ClearActiveConversation | src/stores/active-conversation-store.ts:10-12 | From any state the result has no open conversation, which is the initial state |
| ActiveConversationStore.LastWriteWins | src/stores/active-conversation-store.ts:11 | Of two selections, the later one decides the state |
| ActiveConversationStore.ClearIsSetNull | src/stores/active-conversation-store.ts:11-12 | Clearing equals selecting null, and clearing twice equals clearing once |

## Left out

- The HTTP client `get`, URL building, `async`/`await`, and the `try`/`catch` that logs and rethrows transport errors. These are I/O; only the pure decode of `data` is modelled.
- A response whose `data` is `undefined`. The model takes `data` as a JSON value; `undefined` fails every guard just like `null`, so it takes the default path.
- Json.Member: models only own data properties of a value that has passed the record check, which is every read the guards make. Inherited properties such as `constructor`, the `length` of arrays and strings, and the TypeError of reading from `null` are not modelled.
- All `console.log`, `console.warn` and `console.error` calls. They have no functional effect.
- JSON numbers carry a `real`. Only their type tag is inspected, so NaN, infinities and `-0` are not modelled.
- The external `../types` definitions. `LoadMoreMessagesResponse` is taken to have the shape its guard checks, which is the `MessageHistoryResponse` shape.
- Zustand internals: `create`, the `set`/`get` plumbing, the `persist` middleware's storage writes, JSON stringification and the `chat-unread-storage` key. Each store action is a state transition.
- The current time from `new Date().toISOString()`. It is the `now` parameter of `SetUnreadCount`.
- The `...currentState` spread in `merge`. The store's only data field is `unreadMap`; the spread only carries the action functions over.
- UnreadStore.Merge: does not validate array elements, because the source casts them unchecked. The input is a well-typed entry list, and the store invariant is not claimed after rehydration.
- Conversation ids in the unread store and in the active-conversation selector are integers: JavaScript's `number | null` in the selector becomes `Option<int>`. Counts in the store are integers too. JavaScript's fractional numbers, NaN and the `|| 0` fallback of a NaN count in `getUnreadCount` are not modelled. The `||` fallback on `messageTime` is modelled exactly: only `undefined` and the empty string fall back to "now".
- JavaScript numbers are IEEE doubles, which hold every integer exactly only below 2^53. The model uses unbounded `int` for counts, totals and ids. At 2^53 and above `count + 1` rounds back to the same value, `total += count` rounds, and neighbouring ids collapse into one `Map` key. The members below describe the source only while every count, total and id stays below 2^53:
- UnreadStore.AddUnreadMessage: states `count + 1` exactly, which the source computes only for counts below 2^53.
- UnreadStore.GetTotalUnread: states the exact integer sum, which the source's running `total` matches only while the sum stays below 2^53.
- UnreadStore.TotalAfterAdd: states a rise of exactly one, which holds in the source only while the total stays below 2^53.
- UnreadStore.TotalAfterSet: states an exact replacement of one share of the total, which holds in the source only below 2^53.
- UnreadStore.TotalAfterClear: states an exact drop by the cleared count, which holds in the source only below 2^53.
- UnreadStore.AddTwiceCountsTwo: states a rise of exactly two, which holds in the source only for counts below 2^53 - 1.

=== FILE: active_conversation_store.dfy ===
/** The active-conversation selector (src/stores/active-conversation-store.ts):
    at most one conversation is open at a time; the UI selects one or clears
    the selection. Each action is a pure transition on the state. */
module ActiveConversationStore {
  import opened Wrappers

  /** `None` stands for `activeConversationId: null`. */
  datatype ActiveConversationState = ActiveConversationState(activeConversationId: Option<int>)

  /** No conversation is open when the store is created. */
  const Initial: ActiveConversationState := ActiveConversationState(None)

  /** `setActiveConversation(id)`: the state becomes `id` whatever it was; `id`
      may itself be null. */
  function SetActiveConversation(s: ActiveConversationState, id: Option<int>): (r: ActiveConversationState)
    ensures r.activeConversationId == id
  {
    ActiveConversationState(id)
  }

  /** `clearActiveConversation()`: no conversation is open afterwards. */
  function ClearActiveConversation(s: ActiveConversationState): (r: ActiveConversationState)
    ensures r.activeConversationId.None?
    ensures r == Initial
  {
    ActiveConversationState(None)
  }

  /** The last selection wins over any earlier one. */
  lemma LastWriteWins(s: ActiveConversationState, a: Option<int>, b: Option<int>)
    ensures SetActiveConversation(SetActiveConversation(s, a), b) == SetActiveConversation(s, b)
    ensures SetActiveConversation(s, b).activeConversationId == b
  {
  }

  /** Clearing is the same as selecting null, from any state, and clearing
      twice is clearing once. */
  lemma ClearIsSetNull(s: ActiveConversationState)
    ensures ClearActiveConversation(s) == SetActiveConversation(s, None)
    ensures ClearActiveConversation(ClearActiveConversation(s)) == ClearActiveConversation(s)
  {
  }
}

=== FILE: chat_api.dfy ===
/** The response normaliser of the chat API client (src/features/chats/api/chat.ts).
    Each fetch hands the decoded body `data` to a pure decode step: the expected
    value is accepted either bare or wrapped one level under a `data` property,
    invalid list elements are dropped, and any other shape yields a typed empty
    default. The HTTP call, logging and error rethrow are not part of this model. */
module ChatApi {
  import opened Json

  /** A page of message history as the guard `isMessageHistoryResponse` lets it
      through; message elements themselves are not validated. */
  datatype MessageHistory = MessageHistory(
    messages: seq<Json>,
    lastReadId: real,
    totalUnread: real,
    totalMessage: real,
    hasMoreOld: bool)

  // ---------------------------------------------------------------------------
  // Structural guards
  // ---------------------------------------------------------------------------

  /** `isRecord`: `typeof` says "object", the value is not null and not an array.
      On JSON values that is exactly the objects. */
  predicate IsRecord(v: Json)
    ensures IsRecord(v) <==> v.JObj?
  {
    TypeOf(v) == "object" && v != JNull && !IsArray(v)
  }

  /** `isConversation`: a record whose `id` is a number, `patientName` and
      `responder` are strings and `newMessage` is a boolean. Extra properties
      are allowed. */
  predicate IsConversation(v: Json)
    ensures IsConversation(v) <==>
      && v.JObj?
      && "id" in v.obj && v.obj["id"].JNum?
      && "patientName" in v.obj && v.obj["patientName"].JStr?
      && "responder" in v.obj && v.obj["responder"].JStr?
      && "newMessage" in v.obj && v.obj["newMessage"].JBool?
  {
    if !IsRecord(v) then false
    else
      && TypeOfMember(v, "id") == "number"
      && TypeOfMember(v, "patientName") == "string"
      && TypeOfMember(v, "responder") == "string"
      && TypeOfMember(v, "newMessage") == "boolean"
  }

  /** `isMessageHistoryResponse`: a record whose `messages` is an array,
      `lastReadId`, `totalUnread` and `totalMessage` are numbers and
      `hasMoreOld` is a boolean. */
  predicate IsMessageHistoryResponse(v: Json)
    ensures IsMessageHistoryResponse(v) <==>
      && v.JObj?
      && "messages" in v.obj && v.obj["messages"].JArr?
      && "lastReadId" in v.obj && v.obj["lastReadId"].JNum?
      && "totalUnread" in v.obj && v.obj["totalUnread"].JNum?
      && "totalMessage" in v.obj && v.obj["totalMessage"].JNum?
      && "hasMoreOld" in v.obj && v.obj["hasMoreOld"].JBool?
  {
    if !IsRecord(v) then false
    else
      && IsArrayMember(Member(v, "messages"))
      && TypeOfMember(v, "lastReadId") == "number"
      && TypeOfMember(v, "totalUnread") == "number"
      && TypeOfMember(v, "totalMessage") == "number"
      && TypeOfMember(v, "hasMoreOld") == "boolean"
  }

  // ---------------------------------------------------------------------------
  // Typed reading of the history pages the guard accepts
  // ---------------------------------------------------------------------------

  /** The history page a value that passes `isMessageHistoryResponse` stands for. */
  function HistoryOf(v: Json): MessageHistory
    requires IsMessageHistoryResponse(v)
  {
    MessageHistory(
      v.obj["messages"].arr,
      v.obj["lastReadId"].n,
      v.obj["totalUnread"].n,
      v.obj["totalMessage"].n,
      v.obj["hasMoreOld"].b)
  }

  /** The JSON object a history page is sent as. */
  function HistoryToJson(h: MessageHistory): (v: Json)
    ensures IsMessageHistoryResponse(v)
  {
    JObj(map[
      "messages" := JArr(h.messages),
      "lastReadId" := JNum(h.lastReadId),
      "totalUnread" := JNum(h.totalUnread),
      "totalMessage" := JNum(h.totalMessage),
      "hasMoreOld" := JBool(h.hasMoreOld)])
  }

  /** The guard accepts every history page sent as JSON and reads it back unchanged. */
  lemma HistoryRoundTrip(h: MessageHistory)
    ensures IsMessageHistoryResponse(HistoryToJson(h))
    ensures HistoryOf(HistoryToJson(h)) == h
  {
  }

  // ---------------------------------------------------------------------------
  // Conversation list: filter and normalise
  // ---------------------------------------------------------------------------

  /** `a` is `b` with some elements left out, the rest kept in order. */
  ghost predicate IsSubsequence<T>(a: seq<T>, b: seq<T>)
    decreases |b|
  {
    if |a| == 0 then true
    else if |b| == 0 then false
    else (a[0] == b[0] && IsSubsequence(a[1..], b[1..])) || IsSubsequence(a, b[1..])
  }

  /** `xs.filter(isConversation)`: every kept element passes the guard, the
      kept elements are an order-preserving subsequence of the input, and every
      element that passes the guard is kept as often as it occurs. */
  function FilterConversations(xs: seq<Json>): (r: seq<Json>)
    ensures forall i :: 0 <= i < |r| ==> IsConversation(r[i])
    ensures IsSubsequence(r, xs)
    ensures forall x :: multiset(r)[x] == if IsConversation(x) then multiset(xs)[x] else 0
    decreases |xs|
  {
    if |xs| == 0 then []
    else
      assert xs == [xs[0]] + xs[1..];
      var rest := FilterConversations(xs[1..]);
      if IsConversation(xs[0]) then
        assert ([xs[0]] + rest)[1..] == rest;
        [xs[0]] + rest
      else
        rest
  }

  /** A list in which every element already passes the guard comes back unchanged. */
  lemma {:induction false} FilterAllValid(xs: seq<Json>)
    requires forall i :: 0 <= i < |xs| ==> IsConversation(xs[i])
    ensures FilterConversations(xs) == xs
    decreases |xs|
  {
    if |xs| > 0 {
      FilterAllValid(xs[1..]);
    }
  }

  /** Filtering twice is filtering once. */
  lemma FilterIdempotent(xs: seq<Json>)
    ensures FilterConversations(FilterConversations(xs)) == FilterConversations(xs)
  {
    FilterAllValid(FilterConversations(xs));
  }

  /** The decode step of `fetchConversations`: a bare array is filtered; a
      record whose `data` property is an array has that array filtered; any
      other body yields the empty list. */
  function NormalizeConversations(data: Json): (r: seq<Json>)
    ensures forall i :: 0 <= i < |r| ==> IsConversation(r[i])
    ensures data.JArr? ==> IsSubsequence(r, data.arr)
  {
    if IsArray(data) then
      FilterConversations(data.arr)
    else if IsRecord(data) && IsArrayMember(Member(data, "data")) then
      FilterConversations(Member(data, "data").value.arr)
    else
      []
  }

  /** A bare array is normalised to exactly its valid elements, in order, and
      an array of valid conversations is returned as is. */
  lemma NormalizeDirectArray(xs: seq<Json>)
    ensures NormalizeConversations(JArr(xs)) == FilterConversations(xs)
    ensures (forall i :: 0 <= i < |xs| ==> IsConversation(xs[i])) ==>
              NormalizeConversations(JArr(xs)) == xs
  {
    if forall i :: 0 <= i < |xs| ==> IsConversation(xs[i]) {
      FilterAllValid(xs);
    }
  }

  /** A body wrapped one level as `{data: [...]}` (whatever other properties the
      envelope carries) normalises exactly like the bare array. */
  lemma NormalizeWrappedIsDirect(envelope: map<string, Json>, xs: seq<Json>)
    requires "data" in envelope && envelope["data"] == JArr(xs)
    ensures NormalizeConversations(JObj(envelope)) == NormalizeConversations(JArr(xs))
  {
  }

  /** Any body that is neither an array nor a record with an array `data`
      property normalises to the empty list. */
  lemma NormalizeConversationsFallback(data: Json)
    requires !data.JArr?
    requires !(data.JObj? && "data" in data.obj && data.obj["data"].JArr?)
    ensures NormalizeConversations(data) == []
  {
  }

  /** Normalising an already normalised list again changes nothing. */
  lemma NormalizeConversationsIdempotent(data: Json)
    ensures NormalizeConversations(JArr(NormalizeConversations(data))) == NormalizeConversations(data)
  {
    FilterAllValid(NormalizeConversations(data));
  }

  // ---------------------------------------------------------------------------
  // Message history: normalise
  // ---------------------------------------------------------------------------

  /** The zeroed history page returned when the body has no usable shape. */
  const EmptyHistory: MessageHistory := MessageHistory([], 0.0, 0.0, 0.0, false)

  /** The decode step of `fetchMessages`: a body that passes the guard is
      returned as is; otherwise a record whose `data` property passes the guard
      yields that property; otherwise the zeroed page. */
  function NormalizeMessages(data: Json): (r: Json)
    ensures IsMessageHistoryResponse(r)
    ensures IsMessageHistoryResponse(data) ==> r == data
    ensures r == data || r == HistoryToJson(EmptyHistory) || (data.JObj? && "data" in data.obj && r == data.obj["data"])
  {
    if IsMessageHistoryResponse(data) then
      data
    else if IsRecord(data) && Member(data, "data").Some? && IsMessageHistoryResponse(Member(data, "data").value) then
      Member(data, "data").value
    else
      HistoryToJson(EmptyHistory)
  }

  /** The decode step of `fetchMoreMessages`, written out separately as the
      source does; it applies the same three branches as `NormalizeMessages`. */
  function NormalizeMoreMessages(data: Json): (r: Json)
    ensures IsMessageHistoryResponse(r)
  {
    if IsMessageHistoryResponse(data) then
      data
    else if IsRecord(data) && Member(data, "data").Some? && IsMessageHistoryResponse(Member(data, "data").value) then
      Member(data, "data").value
    else
      HistoryToJson(EmptyHistory)
  }

  /** A wrapped page is unwrapped when the body itself is not a page. */
  lemma NormalizeMessagesWrapped(envelope: map<string, Json>)
    requires !IsMessageHistoryResponse(JObj(envelope))
    requires "data" in envelope && IsMessageHistoryResponse(envelope["data"])
    ensures NormalizeMessages(JObj(envelope)) == envelope["data"]
  {
  }

  /** Every other body yields the zeroed page. */
  lemma NormalizeMessagesFallback(data: Json)
    requires !IsMessageHistoryResponse(data)
    requires !(data.JObj? && "data" in data.obj && IsMessageHistoryResponse(data.obj["data"]))
    ensures NormalizeMessages(data) == HistoryToJson(EmptyHistory)
    ensures HistoryOf(NormalizeMessages(data)) == EmptyHistory
  {
  }

  /** Normalising a normalised page again changes nothing. */
  lemma NormalizeMessagesIdempotent(data: Json)
    ensures NormalizeMessages(NormalizeMessages(data)) == NormalizeMessages(data)
  {
  }

  /** `fetchMoreMessages` and `fetchMessages` decode every body the same way. */
  lemma MoreMessagesSameAsMessages(data: Json)
    ensures NormalizeMoreMessages(data) == NormalizeMessages(data)
  {
  }
}

=== FILE: json.dfy ===
/** A decoded JSON body as the browser sees it after parsing, together with the
    small part of JavaScript's dynamic typing that the response guards rely on:
    the `typeof` operator, `Array.isArray` and property access. */
module Json {
  import opened Wrappers

  /** A JSON value. Numbers carry their value but only their type tag is ever
      inspected; objects are maps from property names to values. */
  datatype Json =
    | JNull
    | JBool(b: bool)
    | JNum(n: real)
    | JStr(s: string)
    | JArr(arr: seq<Json>)
    | JObj(obj: map<string, Json>)

  /** JavaScript's `typeof` on a parsed JSON value: `null` and arrays are both
      reported as "object". */
  function TypeOf(v: Json): (r: string)
    ensures r == "object" <==> (v.JNull? || v.JArr? || v.JObj?)
  {
    match v
    case JNull => "object"
    case JBool(_) => "boolean"
    case JNum(_) => "number"
    case JStr(_) => "string"
    case JArr(_) => "object"
    case JObj(_) => "object"
  }

  /** `Array.isArray`: true for arrays and for nothing else. */
  predicate IsArray(v: Json)
    ensures IsArray(v) <==> v.JArr?
  {
    v.JArr?
  }

  /** `Array.isArray` applied to a property read, which may be `undefined`:
      true exactly when the property is present and holds an array. */
  predicate IsArrayMember(p: Option<Json>)
    ensures IsArrayMember(p) <==> p.Some? && p.value.JArr?
  {
    p.Some? && IsArray(p.value)
  }

  /** Property access `v.key` for the own data properties the response guards
      read, on a value that has already passed the record check: the stored
      value when the object holds `key`, `undefined` otherwise. Inherited
      properties, `length`, and the TypeError of reading from `null` are not
      modelled, since the guards read none of them. */
  function Member(v: Json, key: string): (r: Option<Json>)
    ensures r.Some? <==> v.JObj? && key in v.obj
    ensures r.Some? ==> r.value == v.obj[key]
  {
    if v.JObj? && key in v.obj then Some(v.obj[key]) else None
  }

  /** `typeof v.key`: "undefined" when the property is missing. */
  function TypeOfMember(v: Json, key: string): (r: string)
    ensures r == "undefined" <==> Member(v, key).None?
  {
    match Member(v, key)
    case Some(p) => TypeOf(p)
    case None => "undefined"
  }
}

=== FILE: unread_store.dfy ===
/** The unread-count store (src/stores/unread-store.ts): per-conversation unread
    counters kept in a JavaScript `Map`, with increment, absolute set, delete,
    lookup and sum, and a persistence pair that turns the map into an entry
    list and back. Each mutation is a pure function from the old map to the new
    one; the current time is a parameter. */
module UnreadStore {
  import opened Wrappers

  /** One conversation's unread entry. */
  datatype UnreadMessage = UnreadMessage(conversationId: int, count: int, lastMessageTime: string)

  /** A JavaScript `Map<number, UnreadMessage>`: its keys in insertion order,
      and the value stored under each key. */
  datatype MapRep = MapRep(order: seq<int>, table: map<int, UnreadMessage>)

  ghost predicate Distinct(s: seq<int>)
  {
    forall i, j :: 0 <= i < j < |s| ==> s[i] != s[j]
  }

  /** Each key is listed once, and the listed keys are exactly the stored ones. */
  ghost predicate ValidRep(m: MapRep)
  {
    && Distinct(m.order)
    && (forall i :: 0 <= i < |m.order| ==> m.order[i] in m.table)
    && (forall k :: k in m.table ==> k in m.order)
  }

  lemma DistinctAppend(s: seq<int>, x: int)
    ensures x !in s && Distinct(s) ==> Distinct(s + [x])
  {
  }

  /** The last of distinct keys is not among the others, which stay distinct. */
  lemma DistinctInit(keys: seq<int>)
    requires Distinct(keys) && |keys| > 0
    ensures Distinct(keys[..|keys| - 1])
    ensures keys[|keys| - 1] !in keys[..|keys| - 1]
  {
  }

  type UnreadMap = m: MapRep | ValidRep(m) witness MapRep([], map[])

  const EmptyMap: UnreadMap := MapRep([], map[])

  /** The store's invariant: every entry counts at least one unread message
      and is filed under its own conversation id. */
  ghost predicate WellFormed(m: UnreadMap)
  {
    forall k :: k in m.table ==> m.table[k].count >= 1 && m.table[k].conversationId == k
  }

  /** The store starts from an empty map, which satisfies the invariant. */
  lemma InitialWellFormed()
    ensures WellFormed(EmptyMap)
    ensures EmptyMap.order == [] && EmptyMap.table == map[]
  {
  }

  // ---------------------------------------------------------------------------
  // The JavaScript Map operations the store uses
  // ---------------------------------------------------------------------------

  /** `map.get(k)`. */
  function Get(m: UnreadMap, k: int): (r: Option<UnreadMessage>)
    ensures r.Some? <==> k in m.order
    ensures r.Some? ==> r.value == m.table[k]
  {
    if k in m.table then Some(m.table[k]) else None
  }

  /** `order` without the key `k`, the rest kept in order. */
  function RemoveKey(s: seq<int>, k: int): (r: seq<int>)
    ensures forall x :: x in r <==> x in s && x != k
    ensures Distinct(s) ==> Distinct(r)
    ensures k !in s ==> r == s
    decreases |s|
  {
    if |s| == 0 then []
    else
      var rest := RemoveKey(s[..|s| - 1], k);
      assert s == s[..|s| - 1] + [s[|s| - 1]];
      if s[|s| - 1] == k then rest
      else
        assert Distinct(s) ==> s[|s| - 1] !in rest;
        DistinctAppend(rest, s[|s| - 1]);
        rest + [s[|s| - 1]]
  }

  /** Removing a key listed once at position `i` leaves the keys before it and
      the keys after it, in their order. */
  lemma {:induction false} RemoveKeyKeepsOrder(s: seq<int>, k: int, i: int)
    requires Distinct(s) && 0 <= i < |s| && s[i] == k
    ensures RemoveKey(s, k) == s[..i] + s[i + 1..]
    decreases |s|
  {
    var init := s[..|s| - 1];
    var x := s[|s| - 1];
    DistinctInit(s);
    if i == |s| - 1 {
      assert RemoveKey(init, k) == init;
      assert s[..i] == init;
    } else {
      RemoveKeyKeepsOrder(init, k, i);
      assert init[..i] == s[..i];
      assert init[i + 1..] + [x] == s[i + 1..];
    }
  }

  lemma RemoveKeyKeepsOrderAll(s: seq<int>, k: int)
    requires Distinct(s)
    ensures forall i :: 0 <= i < |s| && s[i] == k ==> RemoveKey(s, k) == s[..i] + s[i + 1..]
  {
    forall i | 0 <= i < |s| && s[i] == k
      ensures RemoveKey(s, k) == s[..i] + s[i + 1..]
    {
      RemoveKeyKeepsOrder(s, k, i);
    }
  }

  /** `map.set(k, v)`: an existing key keeps its position, a new key goes last. */
  function Put(m: UnreadMap, k: int, v: UnreadMessage): (r: UnreadMap)
    ensures r.table == m.table[k := v]
    ensures r.order == if k in m.order then m.order else m.order + [k]
  {
    if k in m.table then MapRep(m.order, m.table[k := v])
    else
      DistinctAppend(m.order, k);
      MapRep(m.order + [k], m.table[k := v])
  }

  /** `map.delete(k)`: the key leaves both the order and the table; the other
      keys keep their order. */
  function Delete(m: UnreadMap, k: int): (r: UnreadMap)
    ensures r.table == m.table - {k}
    ensures forall i :: 0 <= i < |m.order| && m.order[i] == k ==> r.order == m.order[..i] + m.order[i + 1..]
    ensures k !in m.order ==> r.order == m.order
    ensures r.order == RemoveKey(m.order, k)
  {
    RemoveKeyKeepsOrderAll(m.order, k);
    var order := RemoveKey(m.order, k);
    assert forall i :: 0 <= i < |order| ==> order[i] in order;
    MapRep(order, m.table - {k})
  }

  // ---------------------------------------------------------------------------
  // Store operations
  // ---------------------------------------------------------------------------

  /** `getUnreadCount`: the stored count, or 0 when the conversation has no entry. */
  function GetUnreadCount(m: UnreadMap, conversationId: int): (r: int)
    ensures conversationId in m.table ==> r == m.table[conversationId].count
    ensures conversationId !in m.table ==> r == 0
  {
    match Get(m, conversationId)
    case Some(u) => u.count
    case None => 0
  }

  /** `addUnreadMessage`: one more unread message for `conversationId`, stamped
      with `messageTime`; a new entry starts at one and goes last, an existing
      one keeps its position. No other entry changes. */
  function AddUnreadMessage(m: UnreadMap, conversationId: int, messageTime: string): (r: UnreadMap)
    ensures Get(r, conversationId) ==
      Some(UnreadMessage(conversationId, GetUnreadCount(m, conversationId) + 1, messageTime))
    ensures forall k :: k != conversationId ==> Get(r, k) == Get(m, k)
    ensures r.order == if conversationId in m.order then m.order else m.order + [conversationId]
    ensures WellFormed(m) ==> WellFormed(r)
  {
    match Get(m, conversationId)
    case Some(existing) =>
      Put(m, conversationId, UnreadMessage(conversationId, existing.count + 1, messageTime))
    case None =>
      Put(m, conversationId, UnreadMessage(conversationId, 1, messageTime))
  }

  /** `setUnreadCount`: a positive count replaces the entry, stamped with
      `messageTime` or, when that is absent or empty, with `now`; any other
      count deletes the entry. No other entry changes. */
  function SetUnreadCount(m: UnreadMap, conversationId: int, count: int, messageTime: Option<string>, now: string): (r: UnreadMap)
    ensures count > 0 ==>
              Get(r, conversationId) ==
              Some(UnreadMessage(conversationId, count,
                                 if messageTime.None? || messageTime.value == "" then now else messageTime.value))
    ensures count <= 0 ==> Get(r, conversationId).None?
    ensures forall k :: k != conversationId ==> Get(r, k) == Get(m, k)
    ensures count > 0 ==> r.order == if conversationId in m.order then m.order else m.order + [conversationId]
    ensures count <= 0 ==> forall i :: 0 <= i < |m.order| && m.order[i] == conversationId ==>
              r.order == m.order[..i] + m.order[i + 1..]
    ensures count <= 0 && conversationId !in m.order ==> r.order == m.order
    ensures WellFormed(m) ==> WellFormed(r)
  {
    if count > 0 then
      var time := if messageTime.Some? && messageTime.value != "" then messageTime.value else now;
      Put(m, conversationId, UnreadMessage(conversationId, count, time))
    else
      Delete(m, conversationId)
  }

  /** `clearUnread`: the entry is gone, every other entry stays as it was, in
      the same order. */
  function ClearUnread(m: UnreadMap, conversationId: int): (r: UnreadMap)
    ensures Get(r, conversationId).None?
    ensures forall k :: k != conversationId ==> Get(r, k) == Get(m, k)
    ensures forall k :: k in r.order <==> k in m.order && k != conversationId
    ensures forall i :: 0 <= i < |m.order| && m.order[i] == conversationId ==>
              r.order == m.order[..i] + m.order[i + 1..]
    ensures conversationId !in m.order ==> r.order == m.order
    ensures WellFormed(m) ==> WellFormed(r)
  {
    Delete(m, conversationId)
  }

  /** Clearing a conversation twice is clearing it once. */
  lemma ClearUnreadIdempotent(m: UnreadMap, conversationId: int)
    ensures ClearUnread(ClearUnread(m, conversationId), conversationId) == ClearUnread(m, conversationId)
  {
  }

  /** Recording `t1` and then `t2` for the same conversation gives a count two
      higher than before, stamped `t2`. */
  lemma AddTwiceCountsTwo(m: UnreadMap, conversationId: int, t1: string, t2: string)
    ensures GetUnreadCount(AddUnreadMessage(AddUnreadMessage(m, conversationId, t1), conversationId, t2), conversationId)
            == GetUnreadCount(m, conversationId) + 2
    ensures Get(AddUnreadMessage(AddUnreadMessage(m, conversationId, t1), conversationId, t2), conversationId).value.lastMessageTime == t2
  {
  }

  /** After setting a count, lookup reports that count when positive and 0 otherwise. */
  lemma SetThenGet(m: UnreadMap, conversationId: int, count: int, messageTime: Option<string>, now: string)
    ensures GetUnreadCount(SetUnreadCount(m, conversationId, count, messageTime, now), conversationId)
            == if count > 0 then count else 0
  {
  }

  // ---------------------------------------------------------------------------
  // Total
  // ---------------------------------------------------------------------------

  /** The count stored under `k` in a table, 0 when there is none. */
  function CountIn(t: map<int, UnreadMessage>, k: int): int
  {
    if k in t then t[k].count else 0
  }

  /** The sum of the counts stored under `keys`. */
  function SumOver(keys: seq<int>, t: map<int, UnreadMessage>): int
    decreases |keys|
  {
    if |keys| == 0 then 0
    else SumOver(keys[..|keys| - 1], t) + CountIn(t, keys[|keys| - 1])
  }

  /** The sum of the counts of all entries. */
  function Total(m: UnreadMap): int
  {
    SumOver(m.order, m.table)
  }

  /** `getTotalUnread`: walks the entries in insertion order adding up counts. */
  method GetTotalUnread(m: UnreadMap) returns (total: int)
    ensures total == Total(m)
  {
    total := 0;
    var i := 0;
    while i < |m.order|
      invariant 0 <= i <= |m.order|
      invariant total == SumOver(m.order[..i], m.table)
    {
      assert m.order[..i + 1][..i] == m.order[..i];
      total := total + m.table[m.order[i]].count;
      i := i + 1;
    }
    assert m.order[..i] == m.order;
  }

  /** Changing a value under a key not among `keys` leaves their sum alone. */
  lemma {:induction false} SumOverUnrelated(keys: seq<int>, t: map<int, UnreadMessage>, k: int, v: UnreadMessage)
    requires k !in keys
    ensures SumOver(keys, t[k := v]) == SumOver(keys, t)
    decreases |keys|
  {
    if |keys| > 0 {
      SumOverUnrelated(keys[..|keys| - 1], t, k, v);
    }
  }

  /** Changing the value under a key listed once changes the sum by the
      difference of the two counts. */
  lemma {:induction false} SumOverUpdate(keys: seq<int>, t: map<int, UnreadMessage>, k: int, v: UnreadMessage)
    requires Distinct(keys) && k in keys
    ensures SumOver(keys, t[k := v]) == SumOver(keys, t) - CountIn(t, k) + v.count
    decreases |keys|
  {
    var init := keys[..|keys| - 1];
    assert keys == init + [keys[|keys| - 1]];
    if keys[|keys| - 1] == k {
      SumOverUnrelated(init, t, k, v);
    } else {
      SumOverUpdate(init, t, k, v);
    }
  }

  /** Tables that agree on `keys` give the same sum. */
  lemma {:induction false} SumOverAgree(keys: seq<int>, t: map<int, UnreadMessage>, u: map<int, UnreadMessage>)
    requires forall x :: x in keys ==> CountIn(t, x) == CountIn(u, x)
    ensures SumOver(keys, t) == SumOver(keys, u)
    decreases |keys|
  {
    if |keys| > 0 {
      var init := keys[..|keys| - 1];
      assert forall x :: x in init ==> x in keys;
      SumOverAgree(init, t, u);
    }
  }

  /** Dropping a key listed once from `keys` takes its count off the sum. */
  lemma {:induction false} SumOverRemove(keys: seq<int>, t: map<int, UnreadMessage>, k: int)
    requires Distinct(keys) && k in keys
    ensures SumOver(RemoveKey(keys, k), t) == SumOver(keys, t) - CountIn(t, k)
    decreases |keys|
  {
    var init := keys[..|keys| - 1];
    assert keys == init + [keys[|keys| - 1]];
    if keys[|keys| - 1] == k {
      assert k !in init;
      assert RemoveKey(init, k) == init;
    } else {
      SumOverRemove(init, t, k);
      assert RemoveKey(keys, k) == RemoveKey(init, k) + [keys[|keys| - 1]];
    }
  }

  /** Deleting a key listed once, from both the keys and the table, takes its
      count off the sum. */
  lemma SumOverDelete(keys: seq<int>, t: map<int, UnreadMessage>, k: int)
    requires Distinct(keys) && k in keys
    ensures SumOver(RemoveKey(keys, k), t - {k}) == SumOver(keys, t) - CountIn(t, k)
  {
    SumOverRemove(keys, t, k);
    SumOverAgree(RemoveKey(keys, k), t - {k}, t);
  }

  /** Each new unread message raises the total by exactly one. */
  lemma TotalAfterAdd(m: UnreadMap, conversationId: int, messageTime: string)
    ensures Total(AddUnreadMessage(m, conversationId, messageTime)) == Total(m) + 1
  {
    var r := AddUnreadMessage(m, conversationId, messageTime);
    var v := r.table[conversationId];
    assert r.table == m.table[conversationId := v];
    if conversationId in m.order {
      SumOverUpdate(m.order, m.table, conversationId, v);
    } else {
      SumOverUnrelated(m.order, m.table, conversationId, v);
      assert r.order[..|r.order| - 1] == m.order;
    }
  }

  /** Clearing a conversation takes exactly its count off the total. */
  lemma TotalAfterClear(m: UnreadMap, conversationId: int)
    ensures Total(ClearUnread(m, conversationId)) == Total(m) - GetUnreadCount(m, conversationId)
  {
    if conversationId in m.order {
      SumOverDelete(m.order, m.table, conversationId);
    } else {
      assert m.table - {conversationId} == m.table;
    }
  }

  /** Setting a count replaces the conversation's share of the total by the
      new count, or by zero when the entry is deleted. */
  lemma TotalAfterSet(m: UnreadMap, conversationId: int, count: int, messageTime: Option<string>, now: string)
    ensures Total(SetUnreadCount(m, conversationId, count, messageTime, now))
            == Total(m) - GetUnreadCount(m, conversationId) + (if count > 0 then count else 0)
  {
    var r := SetUnreadCount(m, conversationId, count, messageTime, now);
    if count > 0 {
      var v := r.table[conversationId];
      assert r.table == m.table[conversationId := v];
      if conversationId in m.order {
        SumOverUpdate(m.order, m.table, conversationId, v);
      } else {
        SumOverUnrelated(m.order, m.table, conversationId, v);
        assert r.order[..|r.order| - 1] == m.order;
      }
    } else {
      TotalAfterClear(m, conversationId);
    }
  }

  /** Clears every conversation in `ids`, first to last. */
  function ClearEach(m: UnreadMap, ids: seq<int>): (r: UnreadMap)
    ensures forall k :: k in r.table <==> k in m.table && k !in ids
    decreases |ids|
  {
    if |ids| == 0 then m
    else ClearEach(ClearUnread(m, ids[0]), ids[1..])
  }

  /** Clearing every present conversation leaves a total of zero. */
  lemma TotalAfterClearingAll(m: UnreadMap)
    ensures ClearEach(m, m.order) == EmptyMap
    ensures Total(ClearEach(m, m.order)) == 0
  {
    var r := ClearEach(m, m.order);
    assert forall k :: k !in r.table;
    assert r.table == map[];
    EmptyTableEmptyOrder(r);
  }

  /** A map with no stored values lists no keys. */
  lemma EmptyTableEmptyOrder(m: UnreadMap)
    ensures m.table == map[] ==> m.order == []
  {
    if |m.order| > 0 {
      assert m.order[0] in m.table;
    }
  }

  /** Under the invariant the total is at least the number of entries, so it
      is zero exactly when the map is empty. */
  lemma {:induction false} TotalCountsEntries(m: UnreadMap)
    requires WellFormed(m)
    ensures Total(m) >= |m.order|
    ensures Total(m) == 0 <==> m == EmptyMap
  {
    SumAtLeastLength(m.order, m.table);
    if Total(m) == 0 {
      assert |m.order| == 0;
      assert forall k :: k !in m.table;
      assert m.table == map[];
    }
  }

  lemma {:induction false} SumAtLeastLength(keys: seq<int>, t: map<int, UnreadMessage>)
    requires forall x :: x in keys ==> x in t && t[x].count >= 1
    ensures SumOver(keys, t) >= |keys|
    decreases |keys|
  {
    if |keys| > 0 {
      var init := keys[..|keys| - 1];
      assert forall x :: x in init ==> x in keys;
      SumAtLeastLength(init, t);
    }
  }

  // ---------------------------------------------------------------------------
  // Persistence
  // ---------------------------------------------------------------------------

  /** The `unreadMap` property of the persisted state as read back from storage. */
  datatype StoredUnreadMap =
    | Missing                                         // no such property
    | NotAnArray                                      // present, but not an array
    | EntryArray(entries: seq<(int, UnreadMessage)>)  // an array of [key, value] pairs

  datatype PersistedState = PersistedState(unreadMap: StoredUnreadMap)

  /** The `[key, value]` pairs for `keys`, in their order. */
  function EntriesOf(keys: seq<int>, t: map<int, UnreadMessage>): (r: seq<(int, UnreadMessage)>)
    requires forall i :: 0 <= i < |keys| ==> keys[i] in t
    ensures |r| == |keys|
    ensures forall i :: 0 <= i < |r| ==> r[i] == (keys[i], t[keys[i]])
    decreases |keys|
  {
    if |keys| == 0 then []
    else EntriesOf(keys[..|keys| - 1], t) + [(keys[|keys| - 1], t[keys[|keys| - 1]])]
  }

  /** `Array.from(map.entries())`: each key in insertion order, paired with its value. */
  function Entries(m: UnreadMap): (r: seq<(int, UnreadMessage)>)
    ensures |r| == |m.order|
    ensures forall i :: 0 <= i < |r| ==> r[i].0 == m.order[i] && r[i].1 == m.table[m.order[i]]
  {
    EntriesOf(m.order, m.table)
  }

  /** `partialize`: the part of the store that is written to storage, an
      array of the map's entries. */
  function Partialize(m: UnreadMap): (p: PersistedState)
    ensures p.unreadMap.EntryArray?
    ensures |p.unreadMap.entries| == |m.order|
    ensures forall i :: 0 <= i < |m.order| ==>
              p.unreadMap.entries[i].0 == m.order[i] && p.unreadMap.entries[i].1 == m.table[m.order[i]]
  {
    PersistedState(EntryArray(Entries(m)))
  }

  /** The keys that occur in an entry list. */
  function KeysOf(es: seq<(int, UnreadMessage)>): (r: set<int>)
    ensures forall j :: 0 <= j < |es| ==> es[j].0 in r
    decreases |es|
  {
    if |es| == 0 then {}
    else
      var init := es[..|es| - 1];
      assert forall j :: 0 <= j < |init| ==> init[j] == es[j];
      KeysOf(init) + {es[|es| - 1].0}
  }

  /** The position of the first pair in `es` that carries the key `k`. */
  function FirstIndex(es: seq<(int, UnreadMessage)>, k: int): (i: nat)
    requires k in KeysOf(es)
    ensures i < |es| && es[i].0 == k
    ensures forall j :: 0 <= j < i ==> es[j].0 != k
    decreases |es|
  {
    var init := es[..|es| - 1];
    assert forall j :: 0 <= j < |init| ==> init[j] == es[j];
    if k in KeysOf(init) then FirstIndex(init, k) else |es| - 1
  }

  /** `new Map(entries)`: each pair is set in turn, so the map holds exactly
      the listed keys; a repeated key keeps its first position and its last
      value (`FromEntriesLastValue`, `FromEntriesFirstOrder`). */
  function FromEntries(es: seq<(int, UnreadMessage)>): (r: UnreadMap)
    ensures r.table.Keys == KeysOf(es)
    ensures |es| > 0 ==> r.table[es[|es| - 1].0] == es[|es| - 1].1
    decreases |es|
  {
    if |es| == 0 then EmptyMap
    else
      Put(FromEntries(es[..|es| - 1]), es[|es| - 1].0, es[|es| - 1].1)
  }

  /** Every key holds the value of the last pair that carries it. */
  lemma {:induction false} FromEntriesLastValue(es: seq<(int, UnreadMessage)>)
    ensures forall i :: 0 <= i < |es| && (forall j :: i < j < |es| ==> es[j].0 != es[i].0) ==>
              es[i].0 in FromEntries(es).table && FromEntries(es).table[es[i].0] == es[i].1
    decreases |es|
  {
    if |es| > 0 {
      var init := es[..|es| - 1];
      var x := es[|es| - 1].0;
      FromEntriesLastValue(init);
      forall i | 0 <= i < |es| && (forall j :: i < j < |es| ==> es[j].0 != es[i].0)
        ensures es[i].0 in FromEntries(es).table && FromEntries(es).table[es[i].0] == es[i].1
      {
        if i < |es| - 1 {
          assert es[i] == init[i];
          assert x != es[i].0;
          forall j | i < j < |init|
            ensures init[j].0 != init[i].0
          {
            assert init[j] == es[j];
          }
        }
      }
    }
  }

  /** A key taken from a prefix has the same first position in the whole list. */
  lemma FirstIndexInInit(es: seq<(int, UnreadMessage)>, k: int)
    requires |es| > 0 && k in KeysOf(es[..|es| - 1])
    ensures k in KeysOf(es) && FirstIndex(es, k) == FirstIndex(es[..|es| - 1], k)
  {
  }

  /** The map lists its keys in the order of their first occurrence in `es`. */
  lemma {:induction false} FromEntriesFirstOrder(es: seq<(int, UnreadMessage)>)
    ensures forall p, q :: 0 <= p < q < |FromEntries(es).order| ==>
              FirstIndex(es, FromEntries(es).order[p]) < FirstIndex(es, FromEntries(es).order[q])
    decreases |es|
  {
    if |es| > 0 {
      var init := es[..|es| - 1];
      var x := es[|es| - 1].0;
      var prev := FromEntries(init);
      var r := FromEntries(es);
      FromEntriesFirstOrder(init);
      assert r == Put(prev, x, es[|es| - 1].1);
      forall p, q | 0 <= p < q < |r.order|
        ensures FirstIndex(es, r.order[p]) < FirstIndex(es, r.order[q])
      {
        assert prev.order[p] in prev.table;
        FirstIndexInInit(es, prev.order[p]);
        if q < |prev.order| {
          assert prev.order[q] in prev.table;
          FirstIndexInInit(es, prev.order[q]);
        } else {
          assert r.order[q] == x && x !in KeysOf(init);
        }
      }
    }
  }

  /** `merge`: an array under `unreadMap` becomes the map; a missing persisted
      state, a missing property or a non-array property gives the empty map. */
  function Merge(persisted: Option<PersistedState>): (r: UnreadMap)
    ensures (persisted.None? || !persisted.value.unreadMap.EntryArray?) ==> r == EmptyMap
    ensures persisted.Some? && persisted.value.unreadMap.EntryArray? ==>
              r.table.Keys == KeysOf(persisted.value.unreadMap.entries)
    ensures persisted.Some? && persisted.value.unreadMap.EntryArray? ==>
              r == FromEntries(persisted.value.unreadMap.entries)
  {
    match persisted
    case Some(PersistedState(EntryArray(es))) => FromEntries(es)
    case _ => EmptyMap
  }

  /** Setting a new key on a map rebuilt from `init` gives `init` plus that key. */
  lemma RebuildStep(prev: UnreadMap, init: seq<int>, x: int, t: map<int, UnreadMessage>)
    requires prev.order == init && x !in init && x in t
    requires forall k :: k in prev.table <==> k in init
    requires forall k :: k in prev.table ==> k in t && prev.table[k] == t[k]
    ensures Put(prev, x, t[x]).order == init + [x]
    ensures forall k :: k in Put(prev, x, t[x]).table <==> k in init + [x]
    ensures forall k :: k in Put(prev, x, t[x]).table ==> k in t && Put(prev, x, t[x]).table[k] == t[k]
  {
    assert x !in prev.table;
  }

  /** Rebuilding a map from the entries of distinct keys gives those keys, in
      the same order, each with its value. */
  lemma {:induction false} RebuildEntries(keys: seq<int>, t: map<int, UnreadMessage>)
    requires Distinct(keys)
    requires forall i :: 0 <= i < |keys| ==> keys[i] in t
    ensures FromEntries(EntriesOf(keys, t)).order == keys
    ensures forall k :: k in FromEntries(EntriesOf(keys, t)).table <==> k in keys
    ensures forall k :: k in FromEntries(EntriesOf(keys, t)).table ==> k in t && FromEntries(EntriesOf(keys, t)).table[k] == t[k]
    decreases |keys|
  {
    if |keys| > 0 {
      var init := keys[..|keys| - 1];
      var x := keys[|keys| - 1];
      DistinctInit(keys);
      RebuildEntries(init, t);
      var es := EntriesOf(keys, t);
      assert es[..|es| - 1] == EntriesOf(init, t);
      RebuildStep(FromEntries(EntriesOf(init, t)), init, x, t);
      assert keys == init + [x];
    }
  }

  /** A table with the keys of `m` and its values is the table of `m`. */
  lemma SameTable(m: UnreadMap, u: map<int, UnreadMessage>)
    requires forall k :: k in u <==> k in m.order
    requires forall k :: k in u ==> u[k] == m.table[k]
    ensures u == m.table
  {
    forall k | k in m.table
      ensures k in u
    {
    }
    forall k | k in u
      ensures k in m.table
    {
      var i :| 0 <= i < |m.order| && m.order[i] == k;
    }
    assert u.Keys == m.table.Keys;
    assert forall k :: k in m.table ==> m.table[k] == u[k];
  }

  /** Persisting and then rehydrating gives back the same map: same keys,
      same values, same order. */
  lemma PersistRoundTrip(m: UnreadMap)
    ensures Merge(Some(Partialize(m))) == m
  {
    RebuildEntries(m.order, m.table);
    var r := FromEntries(EntriesOf(m.order, m.table));
    SameTable(m, r.table);
  }
}

=== FILE: wrappers.dfy ===
/** The optional value used throughout the model: `None` stands for JavaScript's
    `undefined` (a missing property, an absent map entry, an omitted argument). */
module Wrappers {
  datatype Option<+T> = None | Some(value: T)
}
